=== FILE: README.md ===
# broadcast-gateway in Dafny

A model of the core of the UDP-to-TCP broadcast gateway (`gateway.py`): every
UDP datagram it receives is forwarded to one outbound TCP connection as a
length-prefixed frame, `[4-byte big-endian length][payload]`, so that a TCP
client can recover the datagram boundaries. The model covers:

- `bytes.dfy` (`Bytes`): bytes and the `'>I'` format of `struct.pack` / `struct.unpack`.
- `framing.dfy` (`Framing`): the frame the gateway writes per datagram, `StreamReader.readexactly`,
  the client helper `read_length_prefixed_message`, and a client reading several frames in a row.
- `writer.dfy` (`TcpWriter`): the `tcp_writer` field, which is `None`, an open writer, or a closing writer.
- `forwarding.dfy` (`Forwarding`): `handle_udp_message`, which drops a datagram or appends its frame.
- `reconnect.dfy` (`Reconnect`): `_maintain_tcp_connection` as a state machine.
  The machine is driven by the events that resume the coroutine: connect success or failure,
  read return, timeout or error, close done, delay done, the transport closing, shutdown flag set, and cancel.
  It follows the code as written:
  - the `continue` of the timeout handler and the `break` of the error handler act on the OUTER loop;
  - an idle timeout therefore reconnects at once, with no cleanup, no delay, and the old writer overwritten;
  - a read error ends the loop for good;
  - cancellation ends it without cleanup;
  - a peer that closes cleanly (FIN) does not make `is_closing()` true, so every read returns `b''`
    at once and the inner loop spins without ever reconnecting (`Reconnect.EmptyReadsSpin`).
    This is reasoning about asyncio's transport, not something observed.
    On Python 3.12 and later it is worse: `wait_for` awaits `read(1024)` inline, and at end-of-file
    `read` returns `b''` without suspending, so the spin never yields to the event loop.
    No datagram is handled and the `stop()` scheduled by a signal handler never runs.
    The model's interleavings let datagrams and shutdown in between those reads, an over-approximation:
    every lemma still holds of the real behaviour, which is one of the modelled interleavings.
    This too is reasoning about asyncio, not something executed.
    Before 3.12 the spin does yield, but a datagram forwarded after the peer's FIN draws a reset;
    a later read then raises and the loop ends at the `break` of gateway.py:129. Either way it never reconnects.
  - `Reconnect.TransportCloseLeadsToDelay` covers only a transport closed by `close()` or `abort()` from
    elsewhere while a read is pending and then returns normally; nothing in gateway.py does that while the loop reads.
    A connection reset is different: asyncio hands the error to the reader, so the pending read raises
    (`TransportClosing`, then `ReadError`) and the loop ends (`Reconnect.ResetEndsLoop`).
    All of this is reasoning about asyncio, not something executed.
  - The model assumes Python 3.8 or later, where `asyncio.CancelledError` derives from `BaseException`.
    On 3.7 a cancel during `wait_closed()` would be swallowed by the `except Exception` at gateway.py:141.

  The module also holds the machine with the timeout and error handlers on the inner loop
  (`Reconnect.StepAsIntended`); see Findings.
- `pipeline.dfy` (`Pipeline`): the two halves together, with either reconnect machine.
  Datagrams and connection events interleave in any order.
  The bytes written are exactly the frames of the datagrams that were forwarded:
  those that arrived while the writer was usable and whose length fits the 4-byte prefix.
- `firewall.dfy` (`Firewall`): the iptables rules of `_setup_firewall` and `_cleanup_firewall`,
  and the argument vectors `rule.split()` turns them into.
  Python's `str.split()` is modelled with the whitespace set of `str.isspace()`.

The TCP stream a client reads is modelled as the finite byte sequence the peer
will ever send, then end-of-file. Clocks, sockets and subprocesses are not
modelled; they become events (`ReadTimeout`, `SleepDone`, `ConnectFail`, …) or
parameters (`isRoot`).

One template, `Firewall.RuleText`, stands for all eight f-strings of the
firewall code (gateway.py:187-188, 193-194, 211-212 and 217-218). Its
parameters are the flag (`-I` or `-D`), the chain (INPUT or FORWARD) and the
interface, where the interface `any` selects the variant without `-i`.

## Model

| member | source | states |
|---|---|---|
| Bytes.BigEndian32 | gateway.py:163 | `struct.pack('>I', n)` gives four bytes that unpack back to `n` for every `n < 2^32` |
| Bytes.FromBigEndian32 | gateway.py:250 | `struct.unpack('>I', b)[0]` of four bytes is below 2^32 |
| Bytes.BigEndian32OfFromBigEndian32 | gateway.py:250 | every 4-byte prefix is the packing of the length it unpacks to, so the prefix is determined by the length |
| Framing.Frame | gateway.py:162-164 | a frame is 4 + len(data) bytes: the prefix decodes to len(data), and the payload follows unchanged |
| Framing.EmptyFrame | gateway.py:162-164 | an empty datagram is sent as exactly `00 00 00 00` |
| Framing.FrameAllAppend | gateway.py:9-13 | the frames of two runs of datagrams, written one after the other, are the frames of the combined run |
| Framing.ReadExactly | gateway.py:245 | `readexactly(n)` returns n bytes and the rest of the stream iff n bytes remain, else raises carrying every byte that was left |
| Framing.ReadLengthPrefixedMessage | gateway.py:230-255 | never returns `None`; returns a message iff 4 prefix bytes and the declared payload are present, and the stream is then that frame followed by the rest; otherwise raises `IncompleteReadError` with the exact partial bytes and expected count, for the prefix and for the payload |
| Framing.ReadFrame | gateway.py:245-255 | decoding `frame(data) + rest` returns `data` and leaves `rest` unread |
| Framing.CleanCloseRaises | gateway.py:245-247 | on a stream closed cleanly before a frame, the reader raises `IncompleteReadError(b'', 4)` rather than returning `None` |
| Framing.ReadMessageOrClosed | gateway.py:237-241 | the reader its docstring describes: `None` exactly at a clean end-of-file, otherwise the code's reader |
| Framing.ReadMessages | gateway.py:230-255 | n successful reads mean the stream is the frames of the n messages, then the rest; an early stop is an `IncompleteReadError` after fewer than n messages |
| Framing.ReadMessagesOfFrames | gateway.py:9-13 | reading len(ds) times from the frames of ds recovers exactly ds, in order, consuming nothing more |
| Framing.ReadMessagesIff | gateway.py:9-13 | len(ms) reads return ms and leave `rest` iff the stream is exactly the frames of ms followed by `rest` |
| Framing.ReadPastLastFrameRaises | gateway.py:245-247 | one read past the last frame raises `IncompleteReadError(b'', 4)` after returning every datagram |
| Framing.ReadAllMessages | gateway.py:237-241 | a client loop with the documented reader that stops cleanly has read a stream that is exactly the frames of what it returned |
| Framing.ReadAllMessagesOfFrames | gateway.py:237-241 | that loop, run on the frames of ds and a clean close, returns exactly ds |
| Forwarding.HandleUdpMessage | gateway.py:151-171 | dropped iff there is no writer or it is closing; a dropped datagram leaves the output unchanged; otherwise the output grows by one frame that decodes to the datagram; a length of 2^32 or more raises before anything is written |
| Forwarding.ForwardAll | gateway.py:160-168 | datagrams handled in turn on an open writer append their frames in arrival order; without a usable writer nothing changes |
| Forwarding.ForwardedBoundariesPreserved | gateway.py:9-13 | reading the new output once per forwarded datagram returns the datagrams themselves, boundaries intact |
| Forwarding.FreshConnectionDeliversAll | gateway.py:9-13 | a client reading a fresh connection until its clean close receives exactly the forwarded datagrams |
| Reconnect.Start | gateway.py:109-114 | the coroutine starts with shutdown clear and no writer, at its first connection attempt |
| Reconnect.Step | gateway.py:109-149 | each event keeps the shutdown flag monotone, keeps the writer invariant of each await point, never resumes a finished coroutine, and counts an overwritten open writer exactly when a connection succeeds over one |
| Reconnect.RunPreservesValid | gateway.py:109-149 | every reachable state satisfies the writer invariant: a read awaits a writer, a close awaits a closing writer, a delay follows the reset to `None` |
| Reconnect.ShutdownIsSticky | gateway.py:79-82 | once `stop()` sets the shutdown flag, no later event clears it |
| Reconnect.FinishedIsFinal | gateway.py:129-132 | after the loop ends, whichever way, it stays ended |
| Reconnect.NewAttemptIff | gateway.py:111-126 | a connection attempt starts exactly when an idle timeout or the delay ends while shutdown is clear |
| Reconnect.NoNewIterationAfterShutdown | gateway.py:111 | with shutdown set and no attempt in flight, no connection attempt ever starts again |
| Reconnect.NoDelayAfterShutdown | gateway.py:147-149 | with shutdown set and no delay under way, the coroutine never sleeps again |
| Reconnect.ConnectFailureResetsThenRetries | gateway.py:133-149 | a failed connect first closes a leftover open writer, then resets the writer to `None`; it waits for the delay unless shutdown is set, and then tries again |
| Reconnect.IdleTimeoutSkipsCleanup | gateway.py:124-126 | an idle timeout keeps the writer as it is and goes straight to the outer loop test, without cleanup or delay |
| Reconnect.IdleTimeoutOrphansWriter | gateway.py:114-126 | after an idle timeout, the next successful connect overwrites the still-open writer without closing it |
| Reconnect.ReadErrorEndsLoop | gateway.py:127-129 | a read error ends the reconnect loop for good, whatever happens after |
| Reconnect.CancelSkipsCleanup | gateway.py:131-132 | cancellation ends the coroutine with the writer left as it was, inside or outside the `try` |
| Reconnect.TransportCloseLeadsToDelay | gateway.py:122-149 | when the transport is closed from elsewhere under a pending read that then returns normally, the next return runs the cleanup and the delay |
| Reconnect.ResetEndsLoop | gateway.py:122-129 | a connection reset closes the transport and makes the pending read raise, so the `break` ends the loop for good instead of reconnecting |
| Reconnect.ReadReturnedKeepsMonitoring | gateway.py:122-123 | a read that returns, even the empty read at end-of-file, just reads again while the writer is open |
| Reconnect.EmptyReadsSpin | gateway.py:122-123 | while the writer is open and shutdown is clear, any number of returning reads leave the coroutine exactly where it was: it never reconnects on its own |
| Reconnect.StepAsIntended | gateway.py:110-129 | the loop with its handlers on the inner loop: a timeout reads again, a read error goes to the cleanup; every other event is handled as the code does; shutdown stays monotone and the writer invariant is kept |
| Reconnect.IntendedNeverOrphans | gateway.py:110-149 | with the handlers on the inner loop, a connection attempt always starts without a writer, so no open writer is ever overwritten |
| Reconnect.IntendedTimeoutKeepsReading | gateway.py:124-126 | with the handlers on the inner loop, an idle timeout keeps the connection and reads again |
| Reconnect.IntendedReadErrorReconnects | gateway.py:110-149 | with the handlers on the inner loop, a read error closes the writer, waits the delay and starts a new connection attempt |
| Pipeline.GatewayStep | gateway.py:272-274 | a connection event writes nothing; a datagram (`datagram_received` calling `handle_udp_message`) leaves the connection state alone and only appends to the output |
| Pipeline.GatewayRun | gateway.py:272-274 | over any interleaving the output only grows |
| Pipeline.DatagramsDoNotMoveLoop | gateway.py:151-171 | the connection state after any interleaving is what the connection events alone produce: datagrams, forwarded or dropped, never influence reconnection |
| Pipeline.StepWritesArrived | gateway.py:272-274 | one input writes the frame of the datagram it delivers and nothing else |
| Pipeline.DeliveredPackable | gateway.py:162-163 | every delivered datagram can be framed: one of 2^32 bytes or more, which `struct.pack` rejects, is never delivered |
| Pipeline.OutputIsFramesOfDelivered | gateway.py:151-169 | in any interleaving of datagrams and connection events, the bytes written are exactly the frames of the datagrams that were forwarded, in arrival order; a datagram is forwarded iff the writer is usable and its length fits the prefix |
| Pipeline.DeliveredDatagramsRecovered | gateway.py:9-13 | reading the concatenated output of all connections, one message per delivered datagram, recovers exactly those datagrams; no peer reads that concatenation, but each connection gets a slice of it cut between inputs, and every input appends whole frames (`Pipeline.StepWritesArrived`) while connection events append nothing (`Pipeline.GatewayStep`) |
| Pipeline.HelloDroppedWorldForwarded | gateway.py:151-164 | with the target unreachable, `hello` is dropped; after the delay and a connect, `world` arrives as `00 00 00 05 world` |
| Firewall.Decimal | gateway.py:187 | `str(udp_port)`: a `-` exactly for a negative port, and only in first place, then digits without leading zeros that read back as the port's magnitude |
| Firewall.DigitsValueOfDigits | gateway.py:187 | the digits of the rendered port read back as the port |
| Firewall.DefaultPortText | gateway.py:284 | the default port 50222 is rendered as `50222` |
| Firewall.RuleText | gateway.py:186-195 | every rule is `iptables` followed by the flag, the chain, `-i <iface>` unless the interface is `any`, and `-p udp --dport <port> -j ACCEPT`, one space before each word |
| Firewall.Rules | gateway.py:186-195 | two rules, INPUT then FORWARD; with a one-word interface name or `any`, `split()` turns each into exactly its intended argv |
| Firewall.SetupRules | gateway.py:186-195 | setup's two rules split into the `-I` argv for INPUT, then for FORWARD |
| Firewall.CleanupRules | gateway.py:210-219 | cleanup's two rules split into the `-D` argv for INPUT, then for FORWARD |
| Firewall.Split | gateway.py:199 | `str.split()` yields no more tokens than the string has characters |
| Firewall.SplitWords | gateway.py:223 | every token `str.split()` yields is non-empty and free of whitespace |
| Firewall.SplitSpacedThen | gateway.py:199 | words joined by single spaces split back into the same words, whatever whitespace follows |
| Firewall.SplitRule | gateway.py:197-199 | the tokens of any rule are `iptables`, its flag and its chain, then the tokens of the rest, whatever the interface name |
| Firewall.RuleSplitsToArgv | gateway.py:186-199 | with a one-word interface name or `any`, `rule.split()` is exactly the intended argv |
| Firewall.RuleTokens | gateway.py:186-195 | a rule's tokens start with `iptables`, flag, chain, and contain `-i` iff the interface is not `any` |
| Firewall.SetupRulesShape | gateway.py:186-195 | setup produces two rules, INPUT then FORWARD, each inserting, each scoped iff the interface is not `any` |
| Firewall.DeleteMirrorsInsert | gateway.py:210-219 | for each chain, the delete rule's tokens are the insert rule's with `-I` replaced by `-D` |
| Firewall.CleanupMirrorsSetup | gateway.py:210-219 | cleanup's tokens are setup's, rule for rule, with `-I` replaced by `-D` and every other token identical, for every port and interface name |
| Firewall.RunEach | gateway.py:197-202 | the commands run are a prefix of the rules; the loop goes past a `CalledProcessError` but stops at the first command that cannot be started, and the `OSError` leaves the method exactly when one occurs |
| Firewall.FirewallCommands | gateway.py:180-227 | without root no command runs; as root the commands run are a prefix of the split INPUT and FORWARD rules, the split INPUT rule always runs, both run unless the call raises, and it raises iff some command could not be started |
| Firewall.RootRunsInputArgv | gateway.py:186-199 | as root with a one-word interface or `any`, the first command run is the intended INPUT argv |
| Firewall.RootRunsArgv | gateway.py:186-202 | as root with a one-word interface or `any`, and no `OSError`, the commands run are the intended argv for INPUT, then FORWARD, and nothing is raised |
| Firewall.FirstFailureStopsOnlyOnOsError | gateway.py:197-202 | a failing INPUT rule is logged and FORWARD still runs; an INPUT rule that cannot be started ends the method before FORWARD |
| Firewall.DefaultSetupInput | gateway.py:187 | with the defaults, setup's first command is `iptables -I INPUT -p udp --dport 50222 -j ACCEPT` |

## Left out

- Sockets, `asyncio.open_connection`, `create_datagram_endpoint`, `wait_closed` and the event loop:
  real I/O. They appear only as the events of `Reconnect.Event` and the datagrams of `Pipeline.Input`.
- The fire-and-forget `_drain_writer` tasks (gateway.py:169, 173-178).
  Their errors are only logged, so they do not change what is written.
- The `UDPProtocol` callbacks other than `datagram_received` delegating to `handle_udp_message`: transport plumbing.
- The 10-second read timeout and the float `reconnect_delay`: time is not modelled.
  The timeout is the `ReadTimeout` event and the delay is the `Sleeping` point ended by `SleepDone`.
- Forwarding.HandleUdpMessage: an exception raised by `tcp_writer.write` itself (gateway.py:167-171) is not modelled.
  The call never raises on an open transport: a send error closes the transport instead (the `TransportClosing` event),
  so the model treats the call as always appending the frame.
- `stop()`'s own closing of the writer (gateway.py:92-98), `start()`, `main`, argparse, signal handlers and logging: process plumbing.
  `stop()` enters the model only as its two effects on the loop: the `ShutdownSet` event and the `Cancel` event.
- `subprocess.run` itself: an external side effect.
  How each call ends (success, `CalledProcessError`, `OSError`) is a parameter, and so is the root check.
- The `struct.error` that `read_length_prefixed_message` documents is not modelled.
  It cannot happen: `struct.unpack('>I', …)` always receives exactly four bytes there.
- Framing.ReadLengthPrefixedMessage: the stream is finite bytes then end-of-file, so `readexactly` can only fail with
  `IncompleteReadError`. The transport's own errors, such as `ConnectionResetError` after a reset, are not modelled.
- The firewall lemmas that give exact argv require a one-word interface name.
  For other names, `Firewall.SplitRule`, `Firewall.RuleTokens` and `Firewall.CleanupMirrorsSetup` still hold, for every string.

## Findings

| source | as written | input that shows it | evidently intended | confidence | as-written member | corrected member |
|---|---|---|---|---|---|---|
| gateway.py:245-247 | `readexactly(4)` raises `IncompleteReadError(b'', 4)` on a clean close and never returns an empty result, so the `return None` branch cannot run; a client reading to the end always gets the exception (`Framing.ReadPastLastFrameRaises`) | a stream that is already at end-of-file; equally, one read past the last frame of a well-formed stream | return `None` when the connection closes cleanly before a frame, as the docstring promises (gateway.py:237-238), so that a client can read until close without an exception; with that reader the client loop returns every datagram and stops (`Framing.ReadAllMessagesOfFrames`) | high; not executed | Framing.CleanCloseRaises | Framing.ReadMessageOrClosed |
| gateway.py:124-129 | the `continue` and the `break` sit in handlers of the inner `try`, but both act on the outer `while`: an idle timeout skips the cleanup and reconnects at once, overwriting the still-open writer (`Reconnect.IdleTimeoutOrphansWriter`), and a read error ends the loop for good | a peer that sends nothing for 10 seconds; a read that fails with `ConnectionResetError` | the comment at gateway.py:125 ("connection is still alive") means the idle connection is kept and read again, and the docstring at gateway.py:110 ("auto-reconnect") means a failed connection is cleaned up and retried after the delay (`Reconnect.IntendedTimeoutKeepsReading`, `Reconnect.IntendedReadErrorReconnects`, `Reconnect.IntendedNeverOrphans`) | medium; not executed | Reconnect.ReadErrorEndsLoop | Reconnect.StepAsIntended |

=== FILE: bytes.dfy ===
/**
 Bytes and the 4-byte big-endian unsigned integer that prefixes every frame
 (`struct.pack('>I', n)` / `struct.unpack('>I', b)` in the gateway).
 */
module Bytes {

  /** One octet of a Python `bytes` value. */
  type Byte = b: int | 0 <= b < 256

  /** First value that no longer fits the `'>I'` format (2^32). */
  const Uint32Limit: nat := 0x1_0000_0000

  /** `struct.pack('>I', n)`: most significant byte first, each byte the next base-256 digit. */
  function BigEndian32(n: nat): (b: seq<Byte>)
    requires n < Uint32Limit
    ensures |b| == 4
    ensures FromBigEndian32(b) == n
  {
    var q1 := n / 0x100;
    var q2 := q1 / 0x100;
    [q2 / 0x100, q2 % 0x100, q1 % 0x100, n % 0x100]
  }

  /** `struct.unpack('>I', b)[0]` for a 4-byte `b`; every 4-byte value decodes. */
  function FromBigEndian32(b: seq<Byte>): (n: nat)
    requires |b| == 4
    ensures n < Uint32Limit
  {
    (b[0] as int) * 0x100_0000 + (b[1] as int) * 0x1_0000 + (b[2] as int) * 0x100 + b[3] as int
  }

  /** Packing is injective on four-byte words: unpack followed by pack gives back the bytes. */
  lemma BigEndian32OfFromBigEndian32(b: seq<Byte>)
    requires |b| == 4
    ensures BigEndian32(FromBigEndian32(b)) == b
  {
    var n := FromBigEndian32(b);
    var n1 := (b[0] as int) * 0x100 + b[1] as int;
    var n2 := n1 * 0x100 + b[2] as int;
    assert n == n2 * 0x100 + b[3] as int;
    DivModUnique(n, n2, b[3] as int, 0x100);
    DivModUnique(n2, n1, b[2] as int, 0x100);
    DivModUnique(n1, b[0] as int, b[1] as int, 0x100);
  }

  /** Quotient and remainder are determined by any decomposition `n == q * k + r` with `0 <= r < k`. */
  lemma DivModUnique(n: int, q: int, r: int, k: int)
    requires 0 < k && 0 <= r < k && n == q * k + r
    ensures n / k == q && n % k == r
  {
    var q', r' := n / k, n % k;
    assert q' * k + r' == n;
    if q' < q {
      assert (q - q') * k >= k by { MulAtLeast(q - q', k); }
      assert false;
    } else if q < q' {
      assert (q' - q) * k >= k by { MulAtLeast(q' - q, k); }
      assert false;
    }
  }

  /** A positive multiple of `k` is at least `k`. */
  lemma MulAtLeast(a: int, k: int)
    requires 1 <= a && 0 < k
    ensures a * k >= k
  {
  }

  /** Concatenation is associative; stated once so that long proofs can regroup without re-deriving it. */
  lemma Assoc<T>(a: seq<T>, b: seq<T>, c: seq<T>)
    ensures (a + b) + c == a + (b + c)
  {
  }
}

=== FILE: firewall.dfy ===
/**
 The iptables command lines of `_setup_firewall` and `_cleanup_firewall`, and
 the argument vectors `rule.split()` turns them into before they are run.
 How each `subprocess.run` call ends is a parameter, as is the root check.
 */
module Firewall {
  import opened Bytes

  /** Whether a rule is inserted (`-I`, setup) or deleted (`-D`, cleanup). */
  datatype Action = Insert | Delete

  datatype Chain = Input | Forward

  /** The interface name that means "do not scope the rule". */
  const AnyInterface: string := "any"

  function Flag(a: Action): string {
    match a
    case Insert => "-I"
    case Delete => "-D"
  }

  function ChainName(c: Chain): string {
    match c
    case Input => "INPUT"
    case Forward => "FORWARD"
  }

  // ---------------------------------------------------------------------------
  // Decimal rendering of the port (`str(int)` inside the f-string)

  function DigitChar(d: nat): (c: char)
    requires d < 10
    ensures '0' <= c <= '9'
  {
    "0123456789"[d]
  }

  function DigitValue(c: char): nat
    requires '0' <= c <= '9'
  {
    (c as int) - ('0' as int)
  }

  /** Decimal digits of `n`, most significant first, without leading zeros. */
  function Digits(n: nat): (s: string)
    ensures |s| > 0
    ensures forall i :: 0 <= i < |s| ==> '0' <= s[i] <= '9'
    ensures |s| > 1 ==> s[0] != '0'
  {
    if n < 10 then [DigitChar(n)] else Digits(n / 10) + [DigitChar(n % 10)]
  }

  /** The number a string of decimal digits denotes. */
  function DigitsValue(s: string): nat
    requires forall i :: 0 <= i < |s| ==> '0' <= s[i] <= '9'
  {
    if s == [] then 0 else DigitsValue(s[..|s| - 1]) * 10 + DigitValue(s[|s| - 1])
  }

  /** Reading the digits back gives the number. */
  lemma {:induction false} DigitsValueOfDigits(n: nat)
    ensures DigitsValue(Digits(n)) == n
  {
    var s := Digits(n);
    if n >= 10 {
      DigitsValueOfDigits(n / 10);
      assert s[..|s| - 1] == Digits(n / 10);
    }
  }

  /**
   `str(n)` for a Python `int`: a `-` exactly for a negative number, then the
   digits of its magnitude without leading zeros, which read back as that magnitude.
   */
  function Decimal(n: int): (s: string)
    ensures |s| > 0
    ensures forall i :: 0 <= i < |s| ==> s[i] == '-' || '0' <= s[i] <= '9'
    ensures (s[0] == '-') == (n < 0)
    ensures forall i :: 0 < i < |s| ==> '0' <= s[i] <= '9'
    ensures var mag := if n < 0 then s[1..] else s;
            |mag| > 0 && (|mag| > 1 ==> mag[0] != '0')
            && DigitsValue(mag) == if n < 0 then -n else n
  {
    var d := Digits(if n < 0 then -n else n);
    DigitsValueOfDigits(if n < 0 then -n else n);
    if n < 0 then
      assert ("-" + d)[1..] == d;
      "-" + d
    else d
  }

  // ---------------------------------------------------------------------------
  // The command lines

  /** The `-i <iface>` words of a rule: present only for an interface other than `any`. */
  function InterfaceWords(iface: string): (ws: seq<string>)
    ensures |ws| == 0 || |ws| == 2
  {
    if iface != AnyInterface then ["-i", iface] else []
  }


  // ---------------------------------------------------------------------------
  // `str.split()` with no argument

  /** The characters Python's `str.isspace()` accepts. */
  predicate IsSpace(c: char) {
    || c == ' '
    || '\t' <= c <= '\r'
    || '\U{1C}' <= c <= '\U{1F}'
    || c == '\U{85}' || c == '\U{A0}' || c == '\U{1680}'
    || '\U{2000}' <= c <= '\U{200A}'
    || c == '\U{2028}' || c == '\U{2029}' || c == '\U{202F}' || c == '\U{205F}' || c == '\U{3000}'
  }

  /** A token `split()` can produce: non-empty, without whitespace. */
  predicate IsWord(w: string) {
    |w| > 0 && forall i :: 0 <= i < |w| ==> !IsSpace(w[i])
  }

  predicate AllWords(ws: seq<string>) {
    forall i :: 0 <= i < |ws| ==> IsWord(ws[i])
  }

  /** The longest whitespace-free prefix of `s`. */
  function LeadingWord(s: string): (w: string)
    ensures w <= s
    ensures forall i :: 0 <= i < |w| ==> !IsSpace(w[i])
    ensures |w| == |s| || IsSpace(s[|w|])
  {
    if s == [] || IsSpace(s[0]) then [] else [s[0]] + LeadingWord(s[1..])
  }

  /** `s.split()`: the maximal runs of non-whitespace characters, in order. */
  function Split(s: string): (ws: seq<string>)
    ensures |ws| <= |s|
    decreases |s|
  {
    if s == [] then []
    else if IsSpace(s[0]) then Split(s[1..])
    else
      var w := LeadingWord(s);
      [w] + Split(s[|w|..])
  }

  lemma {:induction false} LeadingWordOfWord(w: string, rest: string)
    requires IsWord(w) || w == []
    requires rest == [] || IsSpace(rest[0])
    ensures LeadingWord(w + rest) == w
    decreases |w|
  {
    if w == [] {
      assert w + rest == rest;
    } else {
      assert (w + rest)[1..] == w[1..] + rest;
      LeadingWordOfWord(w[1..], rest);
    }
  }

  /** A word followed by whitespace, or by nothing, is the first token. */
  lemma SplitWordThen(w: string, x: string)
    requires IsWord(w)
    requires x == [] || IsSpace(x[0])
    ensures Split(w + x) == [w] + Split(x)
  {
    LeadingWordOfWord(w, x);
    assert (w + x)[|w|..] == x;
  }

  /** Every token `split()` yields is a word: non-empty and free of whitespace. */
  lemma {:induction false} SplitWords(s: string)
    ensures AllWords(Split(s))
    decreases |s|
  {
    if s != [] {
      if IsSpace(s[0]) {
        SplitWords(s[1..]);
      } else {
        var w := LeadingWord(s);
        SplitWords(s[|w|..]);
        assert IsWord(w);
        var ws := [w] + Split(s[|w|..]);
        forall i | 0 <= i < |ws| ensures IsWord(ws[i]) {
          if i > 0 { assert ws[i] == Split(s[|w|..])[i - 1]; }
        }
      }
    }
  }

  /** Leading whitespace produces no token. */
  lemma SplitSpace(x: string)
    ensures Split(" " + x) == Split(x)
  {
    assert (" " + x)[1..] == x;
  }

  /** Each of `ws` preceded by one space: the shape of everything after `iptables` in a rule. */
  function Spaced(ws: seq<string>): (s: string)
    ensures ws != [] ==> |s| > 0 && s[0] == ' '
    decreases |ws|
  {
    if ws == [] then [] else " " + (ws[0] + Spaced(ws[1..]))
  }

  lemma SpacedCons(w: string, ws: seq<string>)
    ensures Spaced([w] + ws) == " " + (w + Spaced(ws))
  {
    assert ([w] + ws)[1..] == ws;
  }

  lemma {:induction false} SpacedAppend(ws: seq<string>, vs: seq<string>)
    ensures Spaced(ws + vs) == Spaced(ws) + Spaced(vs)
    decreases |ws|
  {
    if ws == [] {
      assert ws + vs == vs;
    } else {
      ConsThen(ws, vs);
      SpacedCons(ws[0], ws[1..] + vs);
      SpacedAppend(ws[1..], vs);
      SpacedThen(ws, Spaced(vs));
    }
  }

  /** Splitting off the first element of a non-empty sequence, under a further suffix. */
  lemma ConsThen<T>(ws: seq<T>, x: seq<T>)
    requires ws != []
    ensures [ws[0]] + (ws[1..] + x) == ws + x
  {
  }

  lemma SpacedThen(ws: seq<string>, t: string)
    requires ws != []
    ensures Spaced(ws) + t == " " + (ws[0] + (Spaced(ws[1..]) + t))
  {
  }

  /** Words joined by single spaces split back into the same words, whatever whitespace follows. */
  lemma {:induction false} SplitSpacedThen(ws: seq<string>, t: string)
    requires AllWords(ws)
    requires t == [] || IsSpace(t[0])
    ensures Split(Spaced(ws) + t) == ws + Split(t)
    decreases |ws|
  {
    if ws == [] {
      assert Spaced(ws) + t == t;
    } else {
      var r := Spaced(ws[1..]) + t;
      assert AllWords(ws[1..]) by {
        forall i | 0 <= i < |ws[1..]| ensures IsWord(ws[1..][i]) {
          assert ws[1..][i] == ws[i + 1];
        }
      }
      SplitSpacedThen(ws[1..], t);
      SpacedThen(ws, t);
      SplitSpace(ws[0] + r);
      SplitWordThen(ws[0], r);
      ConsThen(ws, Split(t));
    }
  }

  // ---------------------------------------------------------------------------
  // The argument vectors

  /** The tokens every rule ends with: protocol, port and target. */
  function CommonWords(port: string): seq<string> {
    ["-p", "udp", "--dport"] + [port] + ["-j", "ACCEPT"]
  }

  /** The tokens after `iptables`, as the rule text lays them out. */
  function ArgWords(action: Action, chain: Chain, port: string, iface: string): seq<string> {
    [Flag(action), ChainName(chain)] + InterfaceWords(iface) + CommonWords(port)
  }

  lemma CommonWordsText(port: string)
    ensures Spaced(CommonWords(port)) == " -p udp --dport " + port + " -j ACCEPT"
  {
    SpacedAppend(["-p", "udp", "--dport"] + [port], ["-j", "ACCEPT"]);
    SpacedAppend(["-p", "udp", "--dport"], [port]);
    SpacedCons(port, []);
    assert Spaced(["-p", "udp", "--dport"]) == " -p udp --dport";
    assert Spaced(["-j", "ACCEPT"]) == " -j ACCEPT";
  }

  lemma InterfaceWordsText(iface: string)
    ensures Spaced(InterfaceWords(iface)) == if iface != AnyInterface then " -i " + iface else ""
  {
    if iface != AnyInterface {
      SpacedCons(iface, []);
      SpacedCons("-i", [iface]);
    }
  }

  lemma SpacedPair(a: string, b: string)
    ensures Spaced([a, b]) == " " + (a + (" " + b))
  {
    assert [a, b][1..] == [b];
    assert [b][1..] == [];
    assert b + Spaced([]) == b;
  }

  /** The f-string regrouped around its three parts: flag and chain, the optional `-i`, and the common tail. */
  lemma Regroup(f: string, ch: string, b: string, port: string)
    ensures "iptables " + f + " " + ch + b + " -p udp --dport " + port + " -j ACCEPT"
            == "iptables" + ((" " + (f + (" " + ch))) + (b + (" -p udp --dport " + port + " -j ACCEPT")))
  {
  }

  /** The argv each rule is meant to run, token by token. */
  function RuleArgv(action: Action, chain: Chain, port: string, iface: string): seq<string> {
    ["iptables"] + ArgWords(action, chain, port, iface)
  }

  /** The text layout of a rule is `iptables` followed by its argument words, each after one space. */
  lemma LayoutSpaced(f: string, ch: string, iface: string, port: string)
    ensures "iptables " + f + " " + ch + (if iface != AnyInterface then " -i " + iface else "")
            + " -p udp --dport " + port + " -j ACCEPT"
            == "iptables" + Spaced([f, ch] + InterfaceWords(iface) + CommonWords(port))
  {
    var head := [f, ch];
    var opt := InterfaceWords(iface);
    var common := CommonWords(port);
    Regroup(f, ch, if iface != AnyInterface then " -i " + iface else "", port);
    SpacedAppend(head + opt, common);
    SpacedAppend(head, opt);
    SpacedPair(f, ch);
    InterfaceWordsText(iface);
    CommonWordsText(port);
    Assoc(Spaced(head), Spaced(opt), Spaced(common));
  }

  /**
   One rule as the f-strings build it, `port` being the rendered `udp_port`:
   `iptables`, then the flag, the chain, `-i <iface>` unless the interface is
   `any`, and `-p udp --dport <port> -j ACCEPT`, one space before each word.
   */
  function RuleText(action: Action, chain: Chain, port: string, iface: string): (t: string)
    ensures t == "iptables" + Spaced(ArgWords(action, chain, port, iface))
  {
    LayoutSpaced(Flag(action), ChainName(chain), iface, port);
    "iptables " + Flag(action) + " " + ChainName(chain)
    + (if iface != AnyInterface then " -i " + iface else "")
    + " -p udp --dport " + port + " -j ACCEPT"
  }

  /**
   The INPUT rule, then the FORWARD rule; as long as the interface name is one
   word (or `any`), `split()` turns each into exactly its intended argv.
   */
  function Rules(action: Action, udpPort: int, iface: string): (rules: seq<string>)
    ensures |rules| == 2
    ensures iface == AnyInterface || IsWord(iface) ==>
              && Split(rules[0]) == RuleArgv(action, Input, Decimal(udpPort), iface)
              && Split(rules[1]) == RuleArgv(action, Forward, Decimal(udpPort), iface)
  {
    var port := Decimal(udpPort);
    if iface == AnyInterface || IsWord(iface) then
      RuleSplitsToArgv(action, Input, udpPort, iface);
      RuleSplitsToArgv(action, Forward, udpPort, iface);
      [RuleText(action, Input, port, iface), RuleText(action, Forward, port, iface)]
    else
      [RuleText(action, Input, port, iface), RuleText(action, Forward, port, iface)]
  }

  /** The rules `_setup_firewall` runs, in order: `-I INPUT`, then `-I FORWARD`. */
  function SetupRules(udpPort: int, iface: string): (rules: seq<string>)
    ensures |rules| == 2
    ensures iface == AnyInterface || IsWord(iface) ==>
              && Split(rules[0]) == RuleArgv(Insert, Input, Decimal(udpPort), iface)
              && Split(rules[1]) == RuleArgv(Insert, Forward, Decimal(udpPort), iface)
  {
    Rules(Insert, udpPort, iface)
  }

  /** The rules `_cleanup_firewall` runs, in order: `-D INPUT`, then `-D FORWARD`. */
  function CleanupRules(udpPort: int, iface: string): (rules: seq<string>)
    ensures |rules| == 2
    ensures iface == AnyInterface || IsWord(iface) ==>
              && Split(rules[0]) == RuleArgv(Delete, Input, Decimal(udpPort), iface)
              && Split(rules[1]) == RuleArgv(Delete, Forward, Decimal(udpPort), iface)
  {
    Rules(Delete, udpPort, iface)
  }

  lemma PrependPair<T>(a: T, b: T, c: T, x: seq<T>)
    ensures [a] + ([b, c] + x) == [a, b, c] + x
  {
  }

  lemma AllWordsAppend(ws: seq<string>, vs: seq<string>)
    requires AllWords(ws) && AllWords(vs)
    ensures AllWords(ws + vs)
  {
    forall i | 0 <= i < |ws + vs| ensures IsWord((ws + vs)[i]) {
      if i < |ws| { assert (ws + vs)[i] == ws[i]; } else { assert (ws + vs)[i] == vs[i - |ws|]; }
    }
  }

  /** Every fixed token of a rule is a single word. */
  lemma FixedWords(action: Action, chain: Chain)
    ensures IsWord("iptables") && IsWord(Flag(action)) && IsWord(ChainName(chain)) && IsWord("-i")
  {
  }

  lemma CommonKeywords()
    ensures IsWord("-p") && IsWord("udp") && IsWord("--dport") && IsWord("-j") && IsWord("ACCEPT")
  {
  }

  /** The tokens of a rule are `iptables`, its flag and its chain, then the tokens of the rest, whatever the interface. */
  lemma SplitRule(action: Action, chain: Chain, port: string, iface: string)
    ensures Split(RuleText(action, chain, port, iface))
            == ["iptables", Flag(action), ChainName(chain)] + Split(Spaced(InterfaceWords(iface) + CommonWords(port)))
  {
    var head := [Flag(action), ChainName(chain)];
    var words := InterfaceWords(iface) + CommonWords(port);
    var rest := Spaced(words);
    Assoc(head, InterfaceWords(iface), CommonWords(port));
    SpacedAppend(head, words);
    FixedWords(action, chain);
    assert AllWords(head);
    SplitSpacedThen(head, rest);
    SplitWordThen("iptables", Spaced(head) + rest);
    PrependPair("iptables", Flag(action), ChainName(chain), Split(rest));
  }

  /** The argument words are all single tokens when the port and the interface name are. */
  lemma ArgWordsAreWords(action: Action, chain: Chain, port: string, iface: string)
    requires IsWord(port)
    requires iface == AnyInterface || IsWord(iface)
    ensures AllWords(ArgWords(action, chain, port, iface))
  {
    FixedWords(action, chain);
    CommonKeywords();
    var head := [Flag(action), ChainName(chain)];
    assert AllWords(head);
    assert AllWords(InterfaceWords(iface));
    assert AllWords(["-p", "udp", "--dport"]) && AllWords([port]) && AllWords(["-j", "ACCEPT"]);
    AllWordsAppend(["-p", "udp", "--dport"], [port]);
    AllWordsAppend(["-p", "udp", "--dport"] + [port], ["-j", "ACCEPT"]);
    AllWordsAppend(head, InterfaceWords(iface));
    AllWordsAppend(head + InterfaceWords(iface), CommonWords(port));
  }

  /** Words joined by single spaces split back into exactly those words. */
  lemma SplitSpaced(ws: seq<string>)
    requires AllWords(ws)
    ensures Split(Spaced(ws)) == ws
  {
    SplitSpacedThen(ws, []);
    assert Spaced(ws) + [] == Spaced(ws);
    assert ws + [] == ws;
  }

  /** The port is always one token, and never the `-i` flag. */
  lemma DecimalIsWord(n: int)
    ensures IsWord(Decimal(n))
    ensures Decimal(n) != "-i"
  {
    var d := Decimal(n);
    assert |d| != 2 || d[1] != 'i';
  }

  /** Splitting a rule whose interface name is one word yields exactly the intended argv. */
  lemma RuleSplitsToArgv(action: Action, chain: Chain, udpPort: int, iface: string)
    requires iface == AnyInterface || IsWord(iface)
    ensures Split(RuleText(action, chain, Decimal(udpPort), iface)) == RuleArgv(action, chain, Decimal(udpPort), iface)
  {
    var port := Decimal(udpPort);
    var ws := ArgWords(action, chain, port, iface);
    DecimalIsWord(udpPort);
    ArgWordsAreWords(action, chain, port, iface);
    SplitSpaced(ws);
    FixedWords(action, chain);
    SplitWordThen("iptables", Spaced(ws));
  }

  /** With an interface, `-i` is the first token after the chain, whatever the interface name. */
  lemma SplitScoped(port: string, iface: string)
    requires iface != AnyInterface
    ensures Split(Spaced(InterfaceWords(iface) + CommonWords(port)))
            == ["-i"] + Split(Spaced([iface] + CommonWords(port)))
  {
    var rest := Spaced([iface] + CommonWords(port));
    ConsThen(InterfaceWords(iface), CommonWords(port));
    assert InterfaceWords(iface)[1..] == [iface];
    SpacedCons("-i", [iface] + CommonWords(port));
    FixedWords(Insert, Input);
    SplitSpace("-i" + rest);
    SplitWordThen("-i", rest);
  }

  /** Without an interface, the rest of the rule splits into the common tokens. */
  lemma SplitUnscoped(udpPort: int)
    ensures Split(Spaced(CommonWords(Decimal(udpPort)))) == CommonWords(Decimal(udpPort))
  {
    var port := Decimal(udpPort);
    DecimalIsWord(udpPort);
    CommonKeywords();
    assert AllWords(["-p", "udp", "--dport"]) && AllWords([port]) && AllWords(["-j", "ACCEPT"]);
    AllWordsAppend(["-p", "udp", "--dport"], [port]);
    AllWordsAppend(["-p", "udp", "--dport"] + [port], ["-j", "ACCEPT"]);
    SplitSpaced(CommonWords(port));
  }

  /** No unscoped argument word is `-i`: the flags are upper case and the port is a number. */
  lemma NoScopeFlag(action: Action, chain: Chain, port: string)
    requires port != "-i"
    ensures "-i" !in ["iptables", Flag(action), ChainName(chain)] + CommonWords(port)
  {
    assert Flag(action)[1] != 'i';
  }

  /** The tokens of an unscoped rule are exactly its argv, and none of them is `-i`. */
  lemma UnscopedTokens(action: Action, chain: Chain, udpPort: int)
    ensures var ts := Split(RuleText(action, chain, Decimal(udpPort), AnyInterface));
            ts == ["iptables", Flag(action), ChainName(chain)] + CommonWords(Decimal(udpPort))
            && "-i" !in ts
  {
    var port := Decimal(udpPort);
    SplitRule(action, chain, port, AnyInterface);
    SplitUnscoped(udpPort);
    DecimalIsWord(udpPort);
    assert InterfaceWords(AnyInterface) + CommonWords(port) == CommonWords(port);
    NoScopeFlag(action, chain, port);
  }

  /** The tokens of a scoped rule continue with `-i` right after the chain. */
  lemma ScopedTokens(action: Action, chain: Chain, port: string, iface: string)
    requires iface != AnyInterface
    ensures var ts := Split(RuleText(action, chain, port, iface));
            ts == ["iptables", Flag(action), ChainName(chain)] + (["-i"] + Split(Spaced([iface] + CommonWords(port))))
  {
    SplitRule(action, chain, port, iface);
    SplitScoped(port, iface);
  }

  /**
   The tokens of one rule: `iptables`, the flag and the chain come first, and
   `-i` is among them exactly when the interface is not `any`.
   */
  lemma RuleTokens(action: Action, chain: Chain, udpPort: int, iface: string)
    ensures var ts := Split(RuleText(action, chain, Decimal(udpPort), iface));
            && |ts| > 3
            && ts[..3] == ["iptables", Flag(action), ChainName(chain)]
            && ts[3] == (if iface != AnyInterface then "-i" else "-p")
            && ("-i" in ts <==> iface != AnyInterface)
  {
    if iface != AnyInterface {
      ScopedTokens(action, chain, Decimal(udpPort), iface);
    } else {
      UnscopedTokens(action, chain, udpPort);
    }
  }

  /** Setup runs two rules, INPUT then FORWARD, each inserting, each scoped to the interface exactly when it is not `any`. */
  lemma SetupRulesShape(udpPort: int, iface: string)
    ensures var rules := SetupRules(udpPort, iface);
            forall k :: 0 <= k < 2 ==>
              var ts := Split(rules[k]);
              && |ts| > 3
              && ts[..3] == ["iptables", "-I", if k == 0 then "INPUT" else "FORWARD"]
              && ("-i" in ts <==> iface != AnyInterface)
  {
    RuleTokens(Insert, Input, udpPort, iface);
    RuleTokens(Insert, Forward, udpPort, iface);
  }

  lemma ReplaceSecond<T>(a: T, b: T, b': T, c: T, x: seq<T>)
    ensures ([a, b, c] + x)[1 := b'] == [a, b', c] + x
  {
  }

  /** The delete rule for a chain splits into the insert rule's tokens with the flag swapped. */
  lemma DeleteMirrorsInsert(chain: Chain, port: string, iface: string)
    ensures var ins := Split(RuleText(Insert, chain, port, iface));
            |ins| > 1 && ins[1] == "-I" && Split(RuleText(Delete, chain, port, iface)) == ins[1 := "-D"]
  {
    var rest := Split(Spaced(InterfaceWords(iface) + CommonWords(port)));
    SplitRule(Insert, chain, port, iface);
    SplitRule(Delete, chain, port, iface);
    ReplaceSecond("iptables", "-I", "-D", ChainName(chain), rest);
  }

  /**
   Cleanup undoes setup rule for rule: each cleanup argv is the matching setup
   argv with `-I` replaced by `-D`, for every port and interface name.
   */
  lemma CleanupMirrorsSetup(udpPort: int, iface: string)
    ensures var setup, cleanup := SetupRules(udpPort, iface), CleanupRules(udpPort, iface);
            forall k :: 0 <= k < 2 ==>
              |Split(setup[k])| > 1 && Split(setup[k])[1] == "-I"
              && Split(cleanup[k]) == Split(setup[k])[1 := "-D"]
  {
    var port := Decimal(udpPort);
    var setup, cleanup := SetupRules(udpPort, iface), CleanupRules(udpPort, iface);
    forall k | 0 <= k < 2
      ensures |Split(setup[k])| > 1 && Split(setup[k])[1] == "-I"
      ensures Split(cleanup[k]) == Split(setup[k])[1 := "-D"]
    {
      var chain := if k == 0 then Input else Forward;
      assert setup[k] == RuleText(Insert, chain, port, iface);
      assert cleanup[k] == RuleText(Delete, chain, port, iface);
      DeleteMirrorsInsert(chain, port, iface);
    }
  }

  /** How one `subprocess.run(rule.split(), check=True, …)` call ends. */
  datatype Outcome =
    | Succeeded      // iptables exited with status 0
    | ExitedNonZero  // `CalledProcessError`: caught, logged, and the next rule runs
    | CouldNotRun    // an `OSError` such as `FileNotFoundError`: not caught, it leaves the method

  /** The argument vectors that were run, in order, and whether an exception left the method. */
  datatype Attempt = Attempt(ran: seq<seq<string>>, raised: bool)

  /** The `for rule in rules` loop: run each command in turn until one cannot be started. */
  function RunEach(argvs: seq<seq<string>>, outcomes: seq<Outcome>): (a: Attempt)
    requires |outcomes| == |argvs|
    ensures a.ran <= argvs
    ensures argvs != [] ==> |a.ran| > 0
    ensures a.raised <==> CouldNotRun in outcomes
    ensures a.raised ==> outcomes[|a.ran| - 1] == CouldNotRun && CouldNotRun !in outcomes[..|a.ran| - 1]
    ensures !a.raised ==> a.ran == argvs
    decreases |argvs|
  {
    if argvs == [] then Attempt([], false)
    else if outcomes[0] == CouldNotRun then Attempt([argvs[0]], true)
    else
      var rest := RunEach(argvs[1..], outcomes[1..]);
      var a := Attempt([argvs[0]] + rest.ran, rest.raised);
      assert outcomes == [outcomes[0]] + outcomes[1..];
      assert a.raised ==> outcomes[..|a.ran| - 1] == [outcomes[0]] + outcomes[1..][..|rest.ran| - 1];
      assert !a.raised ==> a.ran == [argvs[0]] + argvs[1..];
      a
  }

  /**
   One call of `_setup_firewall` (`Insert`) or `_cleanup_firewall` (`Delete`):
   nothing runs without root; otherwise the INPUT rule, then the FORWARD rule,
   each ending as `outcomes` says.
   */
  function FirewallCommands(isRoot: bool, action: Action, udpPort: int, iface: string, outcomes: seq<Outcome>): (a: Attempt)
    requires |outcomes| == 2
    ensures !isRoot ==> a == Attempt([], false)
    ensures isRoot ==> 0 < |a.ran| <= 2 && (a.raised <==> CouldNotRun in outcomes)
    ensures isRoot ==>
              var rules := Rules(action, udpPort, iface);
              && a.ran <= [Split(rules[0]), Split(rules[1])]
              && a.ran[0] == Split(rules[0])
              && (!a.raised ==> a.ran == [Split(rules[0]), Split(rules[1])])
  {
    if !isRoot then Attempt([], false)
    else
      var rules := Rules(action, udpPort, iface);
      RunEach([Split(rules[0]), Split(rules[1])], outcomes)
  }

  /** As root, with a one-word interface name or `any`, the first command is always the intended INPUT argv. */
  lemma RootRunsInputArgv(action: Action, udpPort: int, iface: string, outcomes: seq<Outcome>)
    requires iface == AnyInterface || IsWord(iface)
    requires |outcomes| == 2
    ensures FirewallCommands(true, action, udpPort, iface, outcomes).ran[0] == RuleArgv(action, Input, Decimal(udpPort), iface)
  {
    RuleSplitsToArgv(action, Input, udpPort, iface);
  }

  /**
   As root, with a one-word interface name or `any`, and unless iptables cannot
   be started, the commands run are exactly the intended argv for INPUT, then FORWARD.
   */
  lemma RootRunsArgv(action: Action, udpPort: int, iface: string, outcomes: seq<Outcome>)
    requires iface == AnyInterface || IsWord(iface)
    requires |outcomes| == 2 && CouldNotRun !in outcomes
    ensures var a := FirewallCommands(true, action, udpPort, iface, outcomes);
            !a.raised
            && a.ran == [RuleArgv(action, Input, Decimal(udpPort), iface), RuleArgv(action, Forward, Decimal(udpPort), iface)]
  {
    RuleSplitsToArgv(action, Input, udpPort, iface);
    RuleSplitsToArgv(action, Forward, udpPort, iface);
  }

  /** A failing INPUT rule does not stop the FORWARD rule; an INPUT rule that cannot be started does, and the error escapes. */
  lemma FirstFailureStopsOnlyOnOsError(action: Action, udpPort: int, iface: string, o: Outcome)
    ensures var a := FirewallCommands(true, action, udpPort, iface, [ExitedNonZero, o]);
            |a.ran| == 2 && a.raised == (o == CouldNotRun)
    ensures var a := FirewallCommands(true, action, udpPort, iface, [CouldNotRun, o]);
            a.raised && a.ran == [Split(Rules(action, udpPort, iface)[0])]
  {
    var rules := Rules(action, udpPort, iface);
    var argvs := [Split(rules[0]), Split(rules[1])];
    assert [ExitedNonZero, o][1..] == [o];
    assert argvs[1..] == [Split(rules[1])];
  }

  /** `str(50222)`, the default port. */
  lemma DefaultPortText()
    ensures Decimal(50222) == "50222"
  {
    assert Digits(5) == "5";
    assert Digits(50) == "50";
    assert Digits(502) == "502";
    assert Digits(5022) == "5022";
  }

  lemma UnscopedArgv(action: Action, chain: Chain, port: string)
    ensures RuleArgv(action, chain, port, AnyInterface)
            == ["iptables", Flag(action), ChainName(chain), "-p", "udp", "--dport", port, "-j", "ACCEPT"]
  {
  }

  /** With the defaults (port 50222, interface `any`), setup inserts exactly this rule into INPUT. */
  lemma DefaultSetupInput(outcomes: seq<Outcome>)
    requires |outcomes| == 2
    ensures FirewallCommands(true, Insert, 50222, AnyInterface, outcomes).ran[0]
            == ["iptables", "-I", "INPUT", "-p", "udp", "--dport", "50222", "-j", "ACCEPT"]
  {
    RootRunsInputArgv(Insert, 50222, AnyInterface, outcomes);
    UnscopedArgv(Insert, Input, Decimal(50222));
    DefaultPortText();
  }
}

=== FILE: forwarding.dfy ===
/**
 The forwarding path: `handle_udp_message` turns each datagram into one frame
 and writes it to the current TCP writer, or drops the datagram when there is
 no usable writer.
 */
module Forwarding {
  import opened Bytes
  import opened Framing
  import opened TcpWriter

  /** The TCP side as the forwarding path sees it: the current writer and every byte handed to it so far. */
  datatype Sink = Sink(writer: WriterState, written: seq<Byte>)

  /** What became of one datagram. */
  datatype Delivery =
    | Forwarded   // the frame was handed to `tcp_writer.write`
    | Dropped     // no writer, or the writer is closing
    | PackFailed  // `struct.pack('>I', len(data))` raised before anything was written

  datatype Handled = Handled(delivery: Delivery, sink: Sink)

  /** `handle_udp_message`: drop without a usable writer, otherwise append the datagram's frame to the output. */
  function HandleUdpMessage(s: Sink, data: seq<Byte>): (r: Handled)
    ensures r.delivery == Dropped <==> !Usable(s.writer)
    ensures r.delivery == PackFailed <==> Usable(s.writer) && !Packable(data)
    ensures r.delivery != Forwarded ==> r.sink == s
    ensures r.delivery == Forwarded ==>
              && r.sink.writer == s.writer
              && s.written <= r.sink.written
              && ReadLengthPrefixedMessage(r.sink.written[|s.written|..]) == Message(data, [])
  {
    if !Usable(s.writer) then Handled(Dropped, s)
    else if !Packable(data) then Handled(PackFailed, s)
    else
      var out := s.written + Frame(data);
      assert out[|s.written|..] == Frame(data) + [];
      ReadFrame(data, []);
      Handled(Forwarded, s.(written := out))
  }

  /** Datagrams `ds` arriving one after another while the writer stays as it is. */
  function ForwardAll(s: Sink, ds: seq<seq<Byte>>): (r: Sink)
    ensures r.writer == s.writer
    ensures !Usable(s.writer) ==> r == s
    ensures Usable(s.writer) && AllPackable(ds) ==> r.written == s.written + FrameAll(ds)
    decreases |ds|
  {
    if ds == [] then s
    else
      var next := HandleUdpMessage(s, ds[0]).sink;
      var r := ForwardAll(next, ds[1..]);
      assert Usable(s.writer) && AllPackable(ds) ==> r.written == s.written + FrameAll(ds) by {
        if Usable(s.writer) && AllPackable(ds) {
          FrameAllCons(ds);
          Assoc(s.written, Frame(ds[0]), FrameAll(ds[1..]));
        }
      }
      r
  }

  /** Message boundaries survive: reading the new output `|ds|` times gives back exactly `ds`, in arrival order. */
  lemma ForwardedBoundariesPreserved(s: Sink, ds: seq<seq<Byte>>)
    requires Usable(s.writer) && AllPackable(ds)
    ensures s.written <= ForwardAll(s, ds).written
    ensures ReadMessages(ForwardAll(s, ds).written[|s.written|..], |ds|) == Read(ds, [])
  {
    var out := ForwardAll(s, ds).written;
    assert out[|s.written|..] == FrameAll(ds) + [];
    ReadMessagesOfFrames(ds, []);
  }

  /** On a fresh connection the peer's consumer loop receives exactly the forwarded datagrams and then a clean close. */
  lemma FreshConnectionDeliversAll(ds: seq<seq<Byte>>)
    requires AllPackable(ds)
    ensures ReadAllMessages(ForwardAll(Sink(Open, []), ds).written) == Read(ds, [])
  {
    ReadAllMessagesOfFrames(ds);
  }
}

=== FILE: framing.dfy ===
/**
 The length-prefixed wire format of the gateway: every UDP datagram becomes one
 frame `[4-byte big-endian length][payload]` on the TCP stream, and a consumer
 recovers the datagrams by reading a prefix and then exactly that many bytes.

 A TCP stream is modelled as the finite sequence of bytes the peer will ever
 send, followed by end-of-file; a reader consumes it from the front.
 */
module Framing {
  import opened Bytes

  /** Size of the length prefix in bytes. */
  const PrefixSize: nat := 4

  /** Payloads whose length `struct.pack('>I', …)` can encode. */
  predicate Packable(data: seq<Byte>) {
    |data| < Uint32Limit
  }

  predicate AllPackable(ds: seq<seq<Byte>>) {
    forall i :: 0 <= i < |ds| ==> Packable(ds[i])
  }

  /** The frame the gateway writes for one datagram: the big-endian length, then the payload unchanged. */
  function Frame(data: seq<Byte>): (f: seq<Byte>)
    requires Packable(data)
    ensures |f| == PrefixSize + |data|
    ensures FromBigEndian32(f[..PrefixSize]) == |data|
    ensures f[PrefixSize..] == data
  {
    BigEndian32(|data|) + data
  }

  /** An empty datagram is sent as four zero bytes and nothing else. */
  lemma EmptyFrame()
    ensures Frame([]) == [0, 0, 0, 0]
  {
  }

  /** Bytes on the wire for `ds`: four prefix bytes plus the payload, per datagram. */
  function FramedSize(ds: seq<seq<Byte>>): nat {
    if ds == [] then 0 else PrefixSize + |ds[0]| + FramedSize(ds[1..])
  }

  /** The frames of `ds`, back to back, in order. */
  function FrameAll(ds: seq<seq<Byte>>): (s: seq<Byte>)
    requires AllPackable(ds)
    ensures |s| == FramedSize(ds)
    ensures ds != [] ==> s[..PrefixSize + |ds[0]|] == Frame(ds[0])
  {
    if ds == [] then [] else Frame(ds[0]) + FrameAll(ds[1..])
  }

  /** The frames of a non-empty list: the first datagram's frame, then the others'. */
  lemma FrameAllCons(ds: seq<seq<Byte>>)
    requires ds != [] && AllPackable(ds)
    ensures Packable(ds[0]) && AllPackable(ds[1..])
    ensures FrameAll(ds) == Frame(ds[0]) + FrameAll(ds[1..])
  {
    assert forall i :: 0 <= i < |ds[1..]| ==> ds[1..][i] == ds[i + 1];
  }

  /** Framing one more datagram in front puts its frame in front. */
  lemma FrameAllPrepend(data: seq<Byte>, ds: seq<seq<Byte>>)
    requires Packable(data) && AllPackable(ds)
    ensures AllPackable([data] + ds)
    ensures FrameAll([data] + ds) == Frame(data) + FrameAll(ds)
  {
    var xs := [data] + ds;
    assert forall i :: 0 < i < |xs| ==> xs[i] == ds[i - 1];
    assert xs[1..] == ds;
  }

  /** Frames of a concatenation are the concatenation of the frames. */
  lemma {:induction false} FrameAllAppend(ds: seq<seq<Byte>>, es: seq<seq<Byte>>)
    requires AllPackable(ds) && AllPackable(es)
    ensures AllPackable(ds + es)
    ensures FrameAll(ds + es) == FrameAll(ds) + FrameAll(es)
  {
    assert AllPackable(ds + es) by {
      forall i | 0 <= i < |ds + es|
        ensures Packable((ds + es)[i])
      {
        if i < |ds| { assert (ds + es)[i] == ds[i]; } else { assert (ds + es)[i] == es[i - |ds|]; }
      }
    }
    if ds == [] {
      assert ds + es == es;
    } else {
      var xs := ds + es;
      assert xs[0] == ds[0];
      assert xs[1..] == ds[1..] + es;
      FrameAllAppend(ds[1..], es);
      calc {
        FrameAll(xs);
        Frame(ds[0]) + FrameAll(ds[1..] + es);
        Frame(ds[0]) + (FrameAll(ds[1..]) + FrameAll(es));
        (Frame(ds[0]) + FrameAll(ds[1..])) + FrameAll(es);
      }
    }
  }

  /** What one read from the stream produces. */
  datatype ReadOutcome =
    | Message(data: seq<Byte>, rest: seq<Byte>)        // the bytes returned, and the unread stream after them
    | Closed                                           // the `None` return of the reader
    | IncompleteRead(partial: seq<Byte>, expected: nat) // `asyncio.IncompleteReadError(partial, expected)`

  /** `StreamReader.readexactly(n)`: `n` bytes, or `IncompleteReadError` carrying what was left when end-of-file came first. */
  function ReadExactly(stream: seq<Byte>, n: nat): (r: ReadOutcome)
    ensures r.Message? || r.IncompleteRead?
    ensures r.Message? <==> n <= |stream|
    ensures r.Message? ==> |r.data| == n && r.data + r.rest == stream
    ensures r.IncompleteRead? ==> r.partial == stream && r.expected == n
  {
    if n <= |stream| then Message(stream[..n], stream[n..]) else IncompleteRead(stream, n)
  }

  /** `read_length_prefixed_message`: read the 4-byte prefix, then exactly that many payload bytes. */
  function ReadLengthPrefixedMessage(stream: seq<Byte>): (r: ReadOutcome)
    ensures !r.Closed?
    ensures r.Message? <==>
              PrefixSize <= |stream| && FromBigEndian32(stream[..PrefixSize]) <= |stream| - PrefixSize
    ensures r.Message? ==> Packable(r.data) && stream == Frame(r.data) + r.rest
    ensures |stream| < PrefixSize ==> r == IncompleteRead(stream, PrefixSize)
    ensures PrefixSize <= |stream| && !r.Message? ==>
              r == IncompleteRead(stream[PrefixSize..], FromBigEndian32(stream[..PrefixSize]))
  {
    match ReadExactly(stream, PrefixSize)
    case Message(lengthData, afterPrefix) =>
      if |lengthData| == 0 then Closed
      else
        var messageLength := FromBigEndian32(lengthData);
        var r := ReadExactly(afterPrefix, messageLength);
        assert r.Message? ==> stream == Frame(r.data) + r.rest by {
          if r.Message? {
            BigEndian32OfFromBigEndian32(lengthData);
            assert stream == lengthData + (r.data + r.rest);
          }
        }
        r
    case other => other
  }

  /** Decoding the frame of `data` followed by anything returns `data` and leaves the rest unread. */
  lemma ReadFrame(data: seq<Byte>, rest: seq<Byte>)
    requires Packable(data)
    ensures ReadLengthPrefixedMessage(Frame(data) + rest) == Message(data, rest)
  {
    var stream := Frame(data) + rest;
    assert stream[..PrefixSize] == Frame(data)[..PrefixSize];
    var r := ReadLengthPrefixedMessage(stream);
    assert r.Message?;
    assert |r.data| == |data|;
    assert Frame(r.data) == Frame(data);
    assert r.data == Frame(r.data)[PrefixSize..];
  }

  /** The reader only ever returns a message or raises: a clean end-of-file before a frame also raises. */
  lemma CleanCloseRaises()
    ensures ReadLengthPrefixedMessage([]) == IncompleteRead([], PrefixSize)
    ensures ReadLengthPrefixedMessage([]) != Closed
  {
  }

  /** The reader as its documentation describes it: `Closed` at a clean end-of-file, otherwise as before. */
  function ReadMessageOrClosed(stream: seq<Byte>): (r: ReadOutcome)
    ensures r.Closed? <==> stream == []
    ensures r.Message? ==> Packable(r.data) && stream == Frame(r.data) + r.rest
    ensures stream != [] ==> r == ReadLengthPrefixedMessage(stream)
  {
    if |stream| == 0 then Closed else ReadLengthPrefixedMessage(stream)
  }

  /** Several reads in a row: the messages read, then either the unread stream or what stopped the reading. */
  datatype Messages =
    | Read(messages: seq<seq<Byte>>, rest: seq<Byte>)
    | Failed(messages: seq<seq<Byte>>, failure: ReadOutcome)

  function Prepend(data: seq<Byte>, m: Messages): (r: Messages)
    ensures r.messages == [data] + m.messages
    ensures r.Read? == m.Read?
  {
    match m
    case Read(ms, rest) => Read([data] + ms, rest)
    case Failed(ms, failure) => Failed([data] + ms, failure)
  }

  /** A client calling `read_length_prefixed_message` `n` times, stopping at the first exception. */
  function ReadMessages(stream: seq<Byte>, n: nat): (r: Messages)
    ensures r.Read? ==> |r.messages| == n && AllPackable(r.messages) && stream == FrameAll(r.messages) + r.rest
    ensures r.Failed? ==> |r.messages| < n && r.failure.IncompleteRead?
    decreases n
  {
    if n == 0 then Read([], stream)
    else
      match ReadLengthPrefixedMessage(stream)
      case Message(data, rest) =>
        var tail := ReadMessages(rest, n - 1);
        var r := Prepend(data, tail);
        assert r.Read? ==> AllPackable(r.messages) && stream == FrameAll(r.messages) + r.rest by {
          if r.Read? {
            FrameAllPrepend(data, tail.messages);
            Assoc(Frame(data), FrameAll(tail.messages), tail.rest);
          }
        }
        r
      case other => Failed([], other)
  }

  /** After a whole frame, the batch reader returns its payload and carries on with what follows. */
  lemma ReadMessagesAfterFrame(data: seq<Byte>, tail: seq<Byte>, n: nat)
    requires Packable(data) && n > 0
    ensures ReadMessages(Frame(data) + tail, n) == Prepend(data, ReadMessages(tail, n - 1))
  {
    ReadFrame(data, tail);
  }

  /** Reading `|ds|` messages from the frames of `ds` recovers exactly `ds`, in order, and consumes nothing more. */
  lemma {:induction false} ReadMessagesOfFrames(ds: seq<seq<Byte>>, rest: seq<Byte>)
    requires AllPackable(ds)
    ensures ReadMessages(FrameAll(ds) + rest, |ds|) == Read(ds, rest)
  {
    if ds != [] {
      var tail := FrameAll(ds[1..]) + rest;
      FrameAllCons(ds);
      Assoc(Frame(ds[0]), FrameAll(ds[1..]), rest);
      ReadMessagesAfterFrame(ds[0], tail, |ds|);
      ReadMessagesOfFrames(ds[1..], rest);
      assert [ds[0]] + ds[1..] == ds;
    }
  }

  /** A successful batch of reads pins the stream down: it is exactly the frames of the messages, then the rest. */
  lemma ReadMessagesIff(stream: seq<Byte>, ms: seq<seq<Byte>>, rest: seq<Byte>)
    requires AllPackable(ms)
    ensures ReadMessages(stream, |ms|) == Read(ms, rest) <==> stream == FrameAll(ms) + rest
  {
    if stream == FrameAll(ms) + rest {
      ReadMessagesOfFrames(ms, rest);
    }
  }

  /** With the reader as written, asking for one message past the last frame raises `IncompleteReadError(b'', 4)`. */
  lemma {:induction false} ReadPastLastFrameRaises(ds: seq<seq<Byte>>)
    requires AllPackable(ds)
    ensures ReadMessages(FrameAll(ds), |ds| + 1) == Failed(ds, IncompleteRead([], PrefixSize))
  {
    if ds == [] {
      CleanCloseRaises();
    } else {
      var tail := FrameAll(ds[1..]);
      FrameAllCons(ds);
      ReadMessagesAfterFrame(ds[0], tail, |ds| + 1);
      ReadPastLastFrameRaises(ds[1..]);
      assert [ds[0]] + ds[1..] == ds;
    }
  }

  /** The consumer loop of the protocol: read frames until the stream closes cleanly. */
  function ReadAllMessages(stream: seq<Byte>): (r: Messages)
    ensures r.Read? ==> r.rest == [] && AllPackable(r.messages) && stream == FrameAll(r.messages)
    ensures r.Failed? ==> r.failure.IncompleteRead?
    decreases |stream|
  {
    match ReadMessageOrClosed(stream)
    case Closed => Read([], [])
    case Message(data, rest) =>
      var tail := ReadAllMessages(rest);
      var r := Prepend(data, tail);
      assert r.Read? ==> AllPackable(r.messages) && stream == FrameAll(r.messages) by {
        if r.Read? {
          FrameAllPrepend(data, tail.messages);
        }
      }
      r
    case other => Failed([], other)
  }

  /** The consumer loop recovers every datagram from a stream of frames that ends cleanly. */
  lemma {:induction false} ReadAllMessagesOfFrames(ds: seq<seq<Byte>>)
    requires AllPackable(ds)
    ensures ReadAllMessages(FrameAll(ds)) == Read(ds, [])
  {
    if ds != [] {
      var tail := FrameAll(ds[1..]);
      FrameAllCons(ds);
      ReadFrame(ds[0], tail);
      ReadAllMessagesOfFrames(ds[1..]);
      assert [ds[0]] + ds[1..] == ds;
    }
  }
}

=== FILE: pipeline.dfy ===
/**
 The gateway as a whole: the reconnect coroutine and the UDP receive path
 share the `tcp_writer` field. Inputs are interleaved in any order; a datagram
 is forwarded or dropped according to the writer at the moment it arrives.

 `written` is every byte handed to a TCP writer, in order, across all the
 connections the coroutine opens; each write is one whole frame. `asIntended`
 selects the reconnect machine: the code as written (`Step`) or the one with
 the timeout and error handlers on the inner loop (`StepAsIntended`). Every
 property below holds for both.
 */
module Pipeline {
  import opened Bytes
  import opened Framing
  import opened TcpWriter
  import opened Forwarding
  import opened Reconnect

  datatype Input =
    | Loop(e: Event)               // something the reconnect coroutine sees
    | Datagram(data: seq<Byte>)    // `datagram_received` calling `handle_udp_message`

  datatype Gateway = Gateway(loop: LoopState, written: seq<Byte>, asIntended: bool)

  function LoopRun(asIntended: bool, s: LoopState, es: seq<Event>): LoopState {
    if asIntended then RunAsIntended(s, es) else Run(s, es)
  }

  /** The events the reconnect coroutine sees, datagrams left out. */
  function LoopEvents(ins: seq<Input>): seq<Event>
    decreases |ins|
  {
    if ins == [] then [] else (if ins[0].Loop? then [ins[0].e] else []) + LoopEvents(ins[1..])
  }

  /**
   One input: a loop event moves the reconnect coroutine and writes nothing;
   a datagram leaves the coroutine alone and only ever appends to the output.
   */
  function GatewayStep(g: Gateway, i: Input): (r: Gateway)
    ensures r.asIntended == g.asIntended
    ensures i.Loop? ==> r.written == g.written
    ensures i.Datagram? ==> r.loop == g.loop
    ensures g.written <= r.written
  {
    match i
    case Loop(e) => g.(loop := if g.asIntended then StepAsIntended(g.loop, e) else Step(g.loop, e))
    case Datagram(d) => g.(written := HandleUdpMessage(Sink(g.loop.writer, g.written), d).sink.written)
  }

  /** A run of inputs: the output only grows, and the machine selector never changes. */
  function GatewayRun(g: Gateway, ins: seq<Input>): (r: Gateway)
    ensures r.asIntended == g.asIntended
    ensures g.written <= r.written
    decreases |ins|
  {
    if ins == [] then g else GatewayRun(GatewayStep(g, ins[0]), ins[1..])
  }

  /**
   The coroutine ends where its own events alone would take it: datagrams,
   forwarded or dropped, never change the connection state.
   */
  lemma {:induction false} DatagramsDoNotMoveLoop(g: Gateway, ins: seq<Input>)
    ensures GatewayRun(g, ins).loop == LoopRun(g.asIntended, g.loop, LoopEvents(ins))
    decreases |ins|
  {
    if ins != [] {
      var g' := GatewayStep(g, ins[0]);
      var rest := LoopEvents(ins[1..]);
      DatagramsDoNotMoveLoop(g', ins[1..]);
      if ins[0].Loop? {
        var es := [ins[0].e] + rest;
        assert LoopEvents(ins) == es && es[0] == ins[0].e && es[1..] == rest;
      } else {
        assert LoopEvents(ins) == [] + rest == rest;
      }
    }
  }

  /**
   The datagram `i` delivers in state `g`: itself when the writer is usable and
   its length fits the 4-byte prefix, nothing otherwise.
   */
  function Arrived(g: Gateway, i: Input): (ds: seq<seq<Byte>>)
    ensures |ds| <= 1
    ensures AllPackable(ds)
    ensures ds != [] <==> i.Datagram? && HandleUdpMessage(Sink(g.loop.writer, g.written), i.data).delivery == Forwarded
  {
    if i.Datagram? && Usable(g.loop.writer) && Packable(i.data) then [i.data] else []
  }

  /** The datagrams that are forwarded, in arrival order. */
  function Delivered(g: Gateway, ins: seq<Input>): (ds: seq<seq<Byte>>)
    ensures |ds| <= |ins|
    decreases |ins|
  {
    if ins == [] then [] else Arrived(g, ins[0]) + Delivered(GatewayStep(g, ins[0]), ins[1..])
  }

  /** One input writes the frame of what it delivers and nothing else. */
  lemma StepWritesArrived(g: Gateway, i: Input)
    ensures GatewayStep(g, i).written == g.written + FrameAll(Arrived(g, i))
  {
    if i.Datagram? && Usable(g.loop.writer) && Packable(i.data) {
      assert FrameAll([i.data]) == Frame(i.data) + FrameAll([]);
    } else {
      assert g.written + [] == g.written;
    }
  }

  /** Every delivered datagram can be framed: one whose length does not fit the prefix is never delivered. */
  lemma {:induction false} DeliveredPackable(g: Gateway, ins: seq<Input>)
    ensures AllPackable(Delivered(g, ins))
    decreases |ins|
  {
    if ins != [] {
      DeliveredPackable(GatewayStep(g, ins[0]), ins[1..]);
      FrameAllAppend(Arrived(g, ins[0]), Delivered(GatewayStep(g, ins[0]), ins[1..]));
    }
  }

  /**
   Whatever the interleaving of datagrams with connects, failures and shutdown,
   the bytes written are exactly the frames of the datagrams that found a usable
   writer, in the order they arrived: nothing dropped is queued or replayed.
   */
  lemma {:induction false} OutputIsFramesOfDelivered(g: Gateway, ins: seq<Input>)
    ensures AllPackable(Delivered(g, ins))
    ensures GatewayRun(g, ins).written == g.written + FrameAll(Delivered(g, ins))
    decreases |ins|
  {
    DeliveredPackable(g, ins);
    if ins == [] {
      assert g.written + [] == g.written;
    } else {
      var g' := GatewayStep(g, ins[0]);
      StepWritesArrived(g, ins[0]);
      OutputIsFramesOfDelivered(g', ins[1..]);
      assert GatewayRun(g, ins) == GatewayRun(g', ins[1..]);
      assert Delivered(g, ins) == Arrived(g, ins[0]) + Delivered(g', ins[1..]);
      AppendFrames(g.written, Arrived(g, ins[0]), Delivered(g', ins[1..]));
    }
  }

  lemma AppendFrames(w: seq<Byte>, ds: seq<seq<Byte>>, es: seq<seq<Byte>>)
    requires AllPackable(ds) && AllPackable(es)
    ensures AllPackable(ds + es)
    ensures w + FrameAll(ds) + FrameAll(es) == w + FrameAll(ds + es)
  {
    FrameAllAppend(ds, es);
    Assoc(w, FrameAll(ds), FrameAll(es));
  }

  /**
   Reading the new bytes, the concatenated output of every connection, recovers
   exactly the delivered datagrams, boundaries intact.
   */
  lemma DeliveredDatagramsRecovered(g: Gateway, ins: seq<Input>)
    ensures g.written <= GatewayRun(g, ins).written
    ensures ReadMessages(GatewayRun(g, ins).written[|g.written|..], |Delivered(g, ins)|)
            == Read(Delivered(g, ins), [])
  {
    OutputIsFramesOfDelivered(g, ins);
    var ds := Delivered(g, ins);
    assert GatewayRun(g, ins).written[|g.written|..] == FrameAll(ds) + [];
    ReadMessagesOfFrames(ds, []);
  }

  lemma FrameOfWorld()
    ensures Frame([119, 111, 114, 108, 100]) == [0, 0, 0, 5, 119, 111, 114, 108, 100]
  {
    assert BigEndian32(5) == [0, 0, 0, 5];
  }

  /** The connection events of the example, one by one: drop, fail, delay, connect. */
  lemma ConnectAfterFailure(g0: Gateway, hello: seq<Byte>)
    requires g0 == Gateway(Start(), [], g0.asIntended)
    ensures GatewayStep(g0, Datagram(hello)) == g0
    ensures GatewayStep(g0, Loop(ConnectFail)) == g0.(loop := LoopState(Sleeping, Absent, false, 0))
    ensures GatewayStep(g0.(loop := LoopState(Sleeping, Absent, false, 0)), Loop(SleepDone))
            == g0.(loop := LoopState(Connecting, Absent, false, 0))
    ensures GatewayStep(g0.(loop := LoopState(Connecting, Absent, false, 0)), Loop(ConnectOk))
            == g0.(loop := LoopState(Reading, Open, false, 0))
  {
  }

  lemma RunCons(g: Gateway, i: Input, rest: seq<Input>)
    ensures GatewayRun(g, [i] + rest) == GatewayRun(GatewayStep(g, i), rest)
  {
    assert ([i] + rest)[0] == i && ([i] + rest)[1..] == rest;
  }

  lemma RunLast(g: Gateway, i: Input)
    ensures GatewayRun(g, [i]) == GatewayStep(g, i)
  {
    assert [i][1..] == [];
  }

  lemma FiveCons<T>(a: T, b: T, c: T, d: T, e: T)
    ensures [a, b, c, d, e] == [a] + ([b] + ([c] + ([d] + [e])))
  {
  }

  /**
   Target unreachable at start, with either reconnect machine: `hello` is dropped; after a failed attempt, the
   delay and a successful connect, `world` reaches the peer as `\x00\x00\x00\x05world`.
   */
  lemma HelloDroppedWorldForwarded(asIntended: bool)
    ensures var hello: seq<Byte> := [104, 101, 108, 108, 111];
            var world: seq<Byte> := [119, 111, 114, 108, 100];
            var ins := [Datagram(hello), Loop(ConnectFail), Loop(SleepDone), Loop(ConnectOk), Datagram(world)];
            GatewayRun(Gateway(Start(), [], asIntended), ins).written == [0, 0, 0, 5, 119, 111, 114, 108, 100]
  {
    var hello: seq<Byte> := [104, 101, 108, 108, 111];
    var world: seq<Byte> := [119, 111, 114, 108, 100];
    var g0 := Gateway(Start(), [], asIntended);
    var g1 := g0.(loop := LoopState(Sleeping, Absent, false, 0));
    var g2 := g0.(loop := LoopState(Connecting, Absent, false, 0));
    var g3 := g0.(loop := LoopState(Reading, Open, false, 0));
    ConnectAfterFailure(g0, hello);
    FrameOfWorld();
    assert GatewayStep(g3, Datagram(world)).written == Frame(world);
    FiveCons(Datagram(hello), Loop(ConnectFail), Loop(SleepDone), Loop(ConnectOk), Datagram(world));
    RunCons(g0, Datagram(hello), [Loop(ConnectFail)] + ([Loop(SleepDone)] + ([Loop(ConnectOk)] + [Datagram(world)])));
    RunCons(g0, Loop(ConnectFail), [Loop(SleepDone)] + ([Loop(ConnectOk)] + [Datagram(world)]));
    RunCons(g1, Loop(SleepDone), [Loop(ConnectOk)] + [Datagram(world)]);
    RunCons(g2, Loop(ConnectOk), [Datagram(world)]);
    RunLast(g3, Datagram(world));
  }
}

=== FILE: reconnect.dfy ===
/**
 The reconnect loop `_maintain_tcp_connection` as a state machine.

 The coroutine is modelled at its suspension points: the state records where it
 is awaiting (or how it ended), the writer field, the shutdown flag and how many
 open writers were overwritten without being closed. The control flow between
 two suspension points (the loop tests, the cleanup, the delay test) is computed
 at once. Events are what can resume the coroutine or change what it will see
 next; an event that means nothing at the current point leaves the state as it is.

 From Python 3.8 on, `asyncio.CancelledError` derives from `BaseException`, so none of the
 `except Exception` clauses catch it: inside the outer `try` it reaches the
 `break` of the `CancelledError` handler, outside it leaves the coroutine.
 */
module Reconnect {
  import opened TcpWriter

  /** How the coroutine ended. */
  datatype Finish =
    | ShutdownObserved   // the outer `while not self._shutdown` test failed
    | BrokeOnError       // `break` in the inner `except Exception` handler
    | BrokeOnCancel      // `break` in the outer `except asyncio.CancelledError` handler
    | CancelledOutside   // cancelled while awaiting `wait_closed()` or `sleep()`, outside the `try`

  /** Where the coroutine is suspended, or that it has ended. */
  datatype Point =
    | Connecting       // awaiting `asyncio.open_connection`
    | Reading          // awaiting `wait_for(tcp_reader.read(1024), timeout=10.0)`
    | AwaitingClose    // awaiting `tcp_writer.wait_closed()` in the cleanup
    | Sleeping         // awaiting `asyncio.sleep(reconnect_delay)`
    | Finished(how: Finish)

  datatype Event =
    | ConnectOk        // `open_connection` returned a reader and a writer
    | ConnectFail      // `open_connection` raised an `Exception`
    | ReadReturned     // `read(1024)` returned, with data or with `b''` at end-of-file
    | ReadTimeout      // `wait_for` raised `TimeoutError` after 10 seconds of silence
    | ReadError        // `read(1024)` raised any other `Exception`
    | CloseDone        // `wait_closed()` returned or raised an `Exception`
    | SleepDone        // the reconnect delay elapsed
    | TransportClosing // the transport started closing, so `is_closing()` is now true
    | ShutdownSet      // `stop()` set `self._shutdown = True`
    | Cancel           // `stop()` called `_connection_task.cancel()`

  datatype LoopState = LoopState(at: Point, writer: WriterState, shutdown: bool, orphaned: nat)

  /** Facts about the writer that hold at each suspension point. */
  predicate Valid(s: LoopState) {
    && (s.at.Reading? ==> !s.writer.Absent?)
    && (s.at.AwaitingClose? ==> s.writer.Closing?)
    && (s.at.Sleeping? ==> s.writer.Absent?)
  }

  /** The outer loop test: a new iteration, hence a new connection attempt, starts only while shutdown is clear. */
  function LoopHead(s: LoopState): LoopState {
    if s.shutdown then s.(at := Finished(ShutdownObserved)) else s.(at := Connecting)
  }

  /** Reader and writer set to `None`, then the delay unless shutdown is set. */
  function ResetAndDelay(s: LoopState): LoopState {
    var t := s.(writer := Absent);
    if t.shutdown then LoopHead(t) else t.(at := Sleeping)
  }

  /** The cleanup after the `try`: close a writer that is not yet closing and await it. */
  function Cleanup(s: LoopState): LoopState {
    if s.writer.Open? then s.(writer := Closing, at := AwaitingClose) else ResetAndDelay(s)
  }

  /** The inner loop test: keep reading while the writer is not closing and shutdown is clear. */
  function MonitorHead(s: LoopState): LoopState {
    match s.writer
    case Absent => s.(at := Finished(BrokeOnError))  // `None.is_closing()` raises inside the inner `try`
    case Closing => Cleanup(s)
    case Open => if s.shutdown then Cleanup(s) else s.(at := Reading)
  }

  /** The coroutine as started by `start()`: shutdown clear, no writer, first connection attempt in flight. */
  function Start(): (s: LoopState)
    ensures s.at.Connecting? && s.writer.Absent? && !s.shutdown && s.orphaned == 0
    ensures Valid(s)
  {
    LoopHead(LoopState(Connecting, Absent, false, 0))
  }

  /** One event. */
  function Step(s: LoopState, e: Event): (r: LoopState)
    ensures r.shutdown == (s.shutdown || e.ShutdownSet?)
    ensures Valid(s) ==> Valid(r)
    ensures s.at.Finished? ==> r.at == s.at
    ensures r.orphaned == s.orphaned + (if s.at.Connecting? && e.ConnectOk? && s.writer.Open? then 1 else 0)
  {
    match e
    case ShutdownSet => s.(shutdown := true)
    case TransportClosing => if s.writer.Open? then s.(writer := Closing) else s
    case _ =>
      match s.at
      case Connecting => WhileConnecting(s, e)
      case Reading => WhileReading(s, e)
      case AwaitingClose => WhileClosing(s, e)
      case Sleeping => WhileSleeping(s, e)
      case Finished(_) => s
  }

  /** Resuming from `open_connection`. */
  function WhileConnecting(s: LoopState, e: Event): LoopState {
    match e
    case ConnectOk =>
      // the new reader and writer replace the old ones, open or not
      var orphaned := if s.writer.Open? then s.orphaned + 1 else s.orphaned;
      MonitorHead(s.(writer := Open, orphaned := orphaned))
    case ConnectFail => Cleanup(s)
    case Cancel => s.(at := Finished(BrokeOnCancel))
    case _ => s
  }

  /** Resuming from the monitoring read. */
  function WhileReading(s: LoopState, e: Event): LoopState {
    match e
    case ReadReturned => MonitorHead(s)
    case ReadTimeout => LoopHead(s)  // this `continue` belongs to the outer loop
    case ReadError => s.(at := Finished(BrokeOnError))  // this `break` leaves the outer loop
    case Cancel => s.(at := Finished(BrokeOnCancel))
    case _ => s
  }

  /** Resuming from `wait_closed()`. */
  function WhileClosing(s: LoopState, e: Event): LoopState {
    match e
    case CloseDone => ResetAndDelay(s)
    case Cancel => s.(at := Finished(CancelledOutside))
    case _ => s
  }

  /** Resuming from the reconnect delay. */
  function WhileSleeping(s: LoopState, e: Event): LoopState {
    match e
    case SleepDone => LoopHead(s)
    case Cancel => s.(at := Finished(CancelledOutside))
    case _ => s
  }

  /** A sequence of events, in order. */
  function Run(s: LoopState, es: seq<Event>): LoopState
    decreases |es|
  {
    if es == [] then s else Run(Step(s, es[0]), es[1..])
  }

  lemma {:induction false} RunAppend(s: LoopState, es: seq<Event>, fs: seq<Event>)
    ensures Run(s, es + fs) == Run(Run(s, es), fs)
    decreases |es|
  {
    if es == [] {
      assert es + fs == fs;
    } else {
      assert (es + fs)[1..] == es[1..] + fs;
      RunAppend(Step(s, es[0]), es[1..], fs);
    }
  }

  /** Every reachable state satisfies `Valid`. */
  lemma {:induction false} RunPreservesValid(s: LoopState, es: seq<Event>)
    requires Valid(s)
    ensures Valid(Run(s, es))
    decreases |es|
  {
    if es != [] {
      RunPreservesValid(Step(s, es[0]), es[1..]);
    }
  }

  /** Once the shutdown flag is set it stays set. */
  lemma {:induction false} ShutdownIsSticky(s: LoopState, es: seq<Event>)
    requires s.shutdown
    ensures Run(s, es).shutdown
    decreases |es|
  {
    if es != [] {
      ShutdownIsSticky(Step(s, es[0]), es[1..]);
    }
  }

  /** A finished coroutine stays finished, however it ended. */
  lemma {:induction false} FinishedIsFinal(s: LoopState, es: seq<Event>)
    requires s.at.Finished?
    ensures Run(s, es).at == s.at
    decreases |es|
  {
    if es != [] {
      FinishedIsFinal(Step(s, es[0]), es[1..]);
    }
  }

  /** A new connection attempt starts exactly when an idle timeout or the delay ends while shutdown is clear. */
  lemma NewAttemptIff(s: LoopState, e: Event)
    ensures (!s.at.Connecting? && Step(s, e).at.Connecting?) <==>
            (!s.shutdown && ((s.at.Reading? && e.ReadTimeout?) || (s.at.Sleeping? && e.SleepDone?)))
  {
  }

  /** With shutdown set and no attempt in flight, no connection attempt is ever started again. */
  lemma {:induction false} NoNewIterationAfterShutdown(s: LoopState, es: seq<Event>)
    requires s.shutdown && !s.at.Connecting?
    ensures !Run(s, es).at.Connecting?
    decreases |es|
  {
    if es != [] {
      NewAttemptIff(s, es[0]);
      NoNewIterationAfterShutdown(Step(s, es[0]), es[1..]);
    }
  }

  /** With shutdown set and no delay under way, the coroutine never sleeps again. */
  lemma {:induction false} NoDelayAfterShutdown(s: LoopState, es: seq<Event>)
    requires s.shutdown && !s.at.Sleeping?
    ensures !Run(s, es).at.Sleeping?
    decreases |es|
  {
    if es != [] {
      var t := Step(s, es[0]);
      assert !t.at.Sleeping?;
      NoDelayAfterShutdown(t, es[1..]);
    }
  }

  /**
   A failed connection attempt resets reader and writer to `None` (closing a writer
   left over from an earlier connection first), then waits for the delay unless
   shutdown is set, and after the delay tries again.
   */
  lemma ConnectFailureResetsThenRetries(s: LoopState)
    requires s.at.Connecting?
    ensures var fail := if s.writer.Open? then [ConnectFail, CloseDone] else [ConnectFail];
            var r := Run(s, fail);
            && r.writer.Absent?
            && r.orphaned == s.orphaned
            && r.at == (if s.shutdown then Finished(ShutdownObserved) else Sleeping)
            && (!s.shutdown ==> Run(s, fail + [SleepDone]).at.Connecting?)
  {
    var fail := if s.writer.Open? then [ConnectFail, CloseDone] else [ConnectFail];
    var t := Step(s, ConnectFail);
    if s.writer.Open? {
      assert t.at.AwaitingClose?;
      assert Run(s, fail) == Run(t, [CloseDone]) == Step(t, CloseDone);
    } else {
      assert Run(s, fail) == t;
    }
    RunAppend(s, fail, [SleepDone]);
    assert Run(s, fail + [SleepDone]) == Step(Run(s, fail), SleepDone);
  }

  /** An idle timeout skips the cleanup and the delay: the writer is kept and the loop test runs at once. */
  lemma IdleTimeoutSkipsCleanup(s: LoopState)
    requires s.at.Reading?
    ensures var r := Step(s, ReadTimeout);
            && r.writer == s.writer
            && r.orphaned == s.orphaned
            && r.at == (if s.shutdown then Finished(ShutdownObserved) else Connecting)
  {
  }

  /** After an idle timeout the next successful connection overwrites the still open writer without closing it. */
  lemma IdleTimeoutOrphansWriter(s: LoopState)
    requires s.at.Reading? && s.writer.Open? && !s.shutdown
    ensures Run(s, [ReadTimeout, ConnectOk]) == s.(orphaned := s.orphaned + 1)
  {
  }

  /** A read error ends the reconnect loop for good, leaving the writer as it was. */
  lemma ReadErrorEndsLoop(s: LoopState, es: seq<Event>)
    requires s.at.Reading?
    ensures Step(s, ReadError) == s.(at := Finished(BrokeOnError))
    ensures Run(s, [ReadError] + es).at == Finished(BrokeOnError)
  {
    assert ([ReadError] + es)[1..] == es;
    FinishedIsFinal(Step(s, ReadError), es);
  }

  /** Cancellation ends the loop without the cleanup: the writer is left as it was. */
  lemma CancelSkipsCleanup(s: LoopState)
    requires !s.at.Finished?
    ensures var r := Step(s, Cancel);
            && r.writer == s.writer
            && r.orphaned == s.orphaned
            && r.at == (if s.at.Connecting? || s.at.Reading? then Finished(BrokeOnCancel) else Finished(CancelledOutside))
  {
  }

  /**
   When the transport is closed by `close()` or `abort()` from elsewhere under a
   pending read that then returns normally, the next return leads to the cleanup
   and the delay. A clean close by the peer does not make the transport close,
   and a reset makes the read raise instead (`ResetEndsLoop`).
   */
  lemma TransportCloseLeadsToDelay(s: LoopState)
    requires s.at.Reading? && s.writer.Open? && !s.shutdown
    ensures Run(s, [TransportClosing, ReadReturned]) == s.(writer := Absent, at := Sleeping)
  {
  }

  /**
   A connection reset closes the transport and makes the pending read raise:
   the `break` ends the loop for good, with the closing writer never awaited.
   */
  lemma ResetEndsLoop(s: LoopState, es: seq<Event>)
    requires s.at.Reading? && s.writer.Open?
    ensures Step(Step(s, TransportClosing), ReadError) == s.(writer := Closing, at := Finished(BrokeOnError))
    ensures Run(s, [TransportClosing, ReadError] + es).at == Finished(BrokeOnError)
  {
    var t := Step(s, TransportClosing);
    assert t == s.(writer := Closing);
    var all := [TransportClosing, ReadError] + es;
    assert all[0] == TransportClosing && all[1..] == [ReadError] + es;
    ReadErrorEndsLoop(t, es);
  }

  /** A read that returns while the writer is open and shutdown is clear just reads again, even the empty read at end-of-file. */
  lemma ReadReturnedKeepsMonitoring(s: LoopState)
    requires s.at.Reading? && s.writer.Open? && !s.shutdown
    ensures Step(s, ReadReturned) == s
  {
  }

  /** Reads that keep returning while the writer stays open and shutdown stays clear, such as the empty reads after a clean close by the peer, never leave the inner loop. */
  lemma {:induction false} EmptyReadsSpin(s: LoopState, n: nat)
    requires s.at.Reading? && s.writer.Open? && !s.shutdown
    ensures Run(s, seq(n, _ => ReadReturned)) == s
    decreases n
  {
    if n > 0 {
      var es := seq(n, _ => ReadReturned);
      assert es[0] == ReadReturned;
      assert es[1..] == seq(n - 1, _ => ReadReturned);
      EmptyReadsSpin(s, n - 1);
    }
  }

  // ---------------------------------------------------------------------------
  // The loop as its comments describe it

  /**
   The step with the two handlers acting on the inner loop, as the comments at
   the timeout ("connection is still alive") and the docstring ("auto-reconnect")
   describe: a timeout goes back to the inner loop test and reads again, and a
   read error leaves the inner loop for the cleanup and the delay.
   */
  function StepAsIntended(s: LoopState, e: Event): (r: LoopState)
    ensures r.shutdown == (s.shutdown || e.ShutdownSet?)
    ensures Valid(s) ==> Valid(r)
    ensures s.at.Finished? ==> r.at == s.at
    ensures !(s.at.Reading? && (e.ReadTimeout? || e.ReadError?)) ==> r == Step(s, e)
  {
    if s.at.Reading? && e.ReadTimeout? then MonitorHead(s)
    else if s.at.Reading? && e.ReadError? then Cleanup(s)
    else Step(s, e)
  }

  function RunAsIntended(s: LoopState, es: seq<Event>): LoopState
    decreases |es|
  {
    if es == [] then s else RunAsIntended(StepAsIntended(s, es[0]), es[1..])
  }

  /** `Valid`, plus: a connection attempt starts without a writer. */
  predicate ValidAsIntended(s: LoopState) {
    Valid(s) && (s.at.Connecting? ==> s.writer.Absent?)
  }

  lemma StepAsIntendedPreservesValid(s: LoopState, e: Event)
    requires ValidAsIntended(s)
    ensures ValidAsIntended(StepAsIntended(s, e))
    ensures StepAsIntended(s, e).orphaned == s.orphaned
  {
  }

  /** With the handlers on the inner loop, no writer is ever overwritten while open. */
  lemma {:induction false} IntendedNeverOrphans(s: LoopState, es: seq<Event>)
    requires ValidAsIntended(s)
    ensures ValidAsIntended(RunAsIntended(s, es))
    ensures RunAsIntended(s, es).orphaned == s.orphaned
    decreases |es|
  {
    if es != [] {
      StepAsIntendedPreservesValid(s, es[0]);
      IntendedNeverOrphans(StepAsIntended(s, es[0]), es[1..]);
    }
  }

  /** With the handlers on the inner loop, an idle connection is kept and read again. */
  lemma IntendedTimeoutKeepsReading(s: LoopState)
    requires s.at.Reading? && s.writer.Open? && !s.shutdown
    ensures StepAsIntended(s, ReadTimeout) == s
  {
  }

  /** With the handlers on the inner loop, a read error closes the writer, waits, and reconnects. */
  lemma IntendedReadErrorReconnects(s: LoopState)
    requires s.at.Reading? && s.writer.Open? && !s.shutdown
    ensures RunAsIntended(s, [ReadError, CloseDone]) == s.(writer := Absent, at := Sleeping)
    ensures RunAsIntended(s, [ReadError, CloseDone, SleepDone]) == s.(writer := Absent, at := Connecting)
  {
    var t := StepAsIntended(s, ReadError);
    assert t == s.(writer := Closing, at := AwaitingClose);
    var u := StepAsIntended(t, CloseDone);
    assert u == s.(writer := Absent, at := Sleeping);
    assert RunAsIntended(s, [ReadError, CloseDone]) == RunAsIntended(u, []);
    assert RunAsIntended(s, [ReadError, CloseDone, SleepDone]) == RunAsIntended(StepAsIntended(u, SleepDone), []);
  }
}

=== FILE: writer.dfy ===
/**
 The gateway's `tcp_writer` field as the forwarding path sees it.
 */
module TcpWriter {

  datatype WriterState =
    | Absent   // `tcp_writer is None`
    | Open     // a writer whose transport is not closing
    | Closing  // a writer whose `is_closing()` is true

  /** The negation of the drop test at the head of `handle_udp_message`. */
  predicate Usable(w: WriterState) {
    w.Open?
  }
}
